=== FILE: README.md ===
# Identity-photo export and compliance checklist, in Dafny

This project models the two pieces of logic in a small Next.js tool that turns
a photograph into a 600×600 JPEG of at most 240 KB:

- **The size-constrained export** (`getCroppedImageAsJpeg` in
  `utils/export.ts`). The chosen crop is drawn over the whole of a square
  canvas of `outputSize` pixels. The canvas is encoded as JPEG at quality
  0.92. While the encoding is over 240 × 1024 bytes, the quality drops by
  0.07, never below 0.5, for at most 8 retries. The first encoding that fits
  is returned; if none fits, the last one is. `bytesToKB` rounds a byte
  count to one decimal of a KB.
- **The compliance checklist** (the `checks` computation in `app/page.tsx`).
  It is a pure function from the optional file metadata, the optional
  natural image size and the optional last export to an ordered list of
  `{label, status, hint?}` entries. It has four sections: file, image,
  export, and three fixed manual reminders.

Modules:

| file | module | models |
|---|---|---|
| `wrappers.dfy` | `Wrappers` | `Option` (for `null`/`undefined`) and `Result` (for rejected promises and thrown errors) |
| `text.dfy` | `Text` | ASCII case folding of a non-Unicode `i` regular expression, unanchored substring search, JavaScript printing of integers below 2^53 and of tenths `t / 10` below 2^49 |
| `export.dfy` | `Export` | the constants, canvas set-up, quality schedule, bounded quality search and `bytesToKB` |
| `checklist.dfy` | `Checklist` | the `ComplianceStatus` and `Check` types |
| `compliance.dfy` | `Compliance` | the checklist builder and its ordering, presence and status rules |

Scaling. Quality is counted in integer hundredths: 92, step 7, floor 50.
`bytesToKB` is computed in integer tenths of a KB. The aspect-ratio test
`|w / h - 1| < 0.02` is the integer test `h > 0 && 50·|w - h| < h`. Lemmas
tie the scaled forms to the source formulas read over exact reals.

Parameters. The browser's JPEG encoder is a parameter: a total,
deterministic function from a canvas and a quality to the encoded bytes.
Nothing is assumed about how the size depends on the quality, so the
properties below hold for any encoder. Image decoding is a parameter too:
the decoded image, or `None` when `loadImage` rejects. So is whether the
canvas yields a 2D context.

Three behaviours of the code worth noting:

- The file-format test accepts any name ending in `jpg` or `jpeg` in any
  case, with or without a dot (`/jpe?g$/i`). It also accepts a declared type
  that contains `image/jpeg`, compared case-sensitively.
- The crop rectangle is handed to `drawImage` unchanged; nothing clamps it.
- A non-square original is a `warn`, not a failure; only the format check
  and the export-budget check can be `err`.

## Model

| member | source | states |
|---|---|---|
| Export.NextQuality | utils/export.ts:35 | one update never goes below 0.50; from 0.57 or more it lowers the quality by exactly 0.07, below that it gives 0.50 |
| Export.QualityAt | utils/export.ts:30-37 | the quality of every attempt stays between the floor 0.50 and the initial 0.92 |
| Export.QualityClosedForm | utils/export.ts:30-35 | attempt k uses quality max(50, 92 − 7k) hundredths |
| Export.QualityNonIncreasing | utils/export.ts:34-35 | the quality never rises from one attempt to a later one |
| Export.QualityAtFloor | utils/export.ts:34-35 | the quality is at the 0.50 floor exactly from attempt 6 on |
| Export.QualitySchedule | utils/export.ts:30-38 | the nine possible qualities are 92, 85, 78, 71, 64, 57, 50, 50, 50 |
| Export.SearchFrom | utils/export.ts:34-38 | from any loop state, the loop ends within 8 retries; every attempt it passes over is over budget; it ends fitting or with the retries spent |
| Export.Search | utils/export.ts:29-39 | the result is the encoding at the quality of its attempt; every earlier attempt was over budget; the result fits unless all 8 retries were spent; one encoder call per attempt at the scheduled quality |
| Export.EncoderCallBound | utils/export.ts:31-38 | the encoder is called between 1 and 9 times, call i at quality max(50, 92 − 7i) |
| Export.FirstEncodingFits | utils/export.ts:30-34 | the first encoding fits iff it is returned after exactly one encoder call |
| Export.StopsAtFirstFit | utils/export.ts:34-39 | if attempt k is the first that fits, the search returns attempt k's encoding after k + 1 calls |
| Export.GracefulDegradation | utils/export.ts:34-39 | an over-budget result means all 9 attempts were over budget; the result is then the quality-50 encoding, returned rather than failing |
| Export.FloorFitGuaranteesFit | utils/export.ts:34-39 | if the quality-50 encoding fits, the returned blob fits, whether or not the encoder's size falls with quality |
| Export.MonotoneFloorMiss | utils/export.ts:34-39 | for an encoder whose size never grows as the quality falls, an over-budget quality-0.50 encoding is exactly what the search returns |
| Export.LargerBudgetNoMoreCalls | utils/export.ts:32-34 | raising the byte budget never increases the number of encoder calls |
| Export.ThreeCallScenario | utils/export.ts:29-39 | with encodings of 310, 260 and 215 KB at 0.92, 0.85 and 0.78, the search returns the 215 KB one after three calls |
| Export.GetCroppedImageAsJpeg | utils/export.ts:1-40 | a failed decode, a missing 2D context and an output size of 0 (whose `toBlob` gives `null`, so reading `blob.size` throws) are the only errors, in that order; on success the canvas is outputSize × outputSize with the crop drawn over all of it, and the blob is the first attempt's encoding that fits 240 KB (every earlier attempt was over), or, when none fits, the encoding of the ninth attempt at the 0.50 floor |
| Export.DrawCropped | utils/export.ts:10-27 | the canvas is outputSize × outputSize, the crop is the source rectangle unchanged, it is drawn over the whole canvas, with high-quality smoothing |
| Export.OutputSizeIndependentOfCrop | utils/export.ts:10-27 | two exports at a positive outputSize with different crops both succeed with canvases of the same outputSize × outputSize dimensions; at size 0 both fail with the same error |
| Export.BytesToKBTenths | utils/export.ts:64-66 | the result in tenths is bytes·10/1024 rounded to the nearest whole number, ties upward |
| Export.BytesToKBMatchesRounding | utils/export.ts:64-66 | the result equals floor(bytes / 102.4 + 0.5) over exact reals, which is Math.round |
| Export.BytesToKBMonotone | utils/export.ts:64-66 | more bytes never show as fewer KB |
| Export.BudgetShowsAs240 | utils/export.ts:64-66 | 240 × 1024 bytes shows as exactly 240 KB |
| Text.Contains | app/page.tsx:53 | the unanchored search for `image/jpeg` succeeds iff the pattern occurs at some index of the type |
| Text.DecimalString | app/page.tsx:61 | the printed integer is a non-empty string of digits with no leading zero |
| Text.DecimalRoundTrip | app/page.tsx:61 | reading a printed integer back gives the integer |
| Text.TenthsString | app/page.tsx:84 | reading a printed KB size back gives the same number of tenths, so different sizes print differently |
| Compliance.JpegName | app/page.tsx:53 | the name test holds iff the name ends in "jpg" or "jpeg", ignoring ASCII case |
| Compliance.IsJpeg | app/page.tsx:53 | a file counts as JPEG iff its name ends in "jpg" or "jpeg" ignoring ASCII case, or `image/jpeg` occurs anywhere in its declared type |
| Compliance.RoughlySquare | app/page.tsx:70 | the aspect test holds iff h > 0 and abs(w/h − 1) < 0.02 over exact reals |
| Compliance.RoughlySquareOverReals | app/page.tsx:70 | for h > 0, abs(w/h − 1) < 0.02 iff 50·abs(w − h) < h |
| Compliance.Checks | app/page.tsx:49-110 | the length is (file ? 2 : 1) + (natural ? 1 : 0) + (output ? 3 : 0) + 3, and the last three entries are the manual reminders |
| Compliance.ManualChecksFixed | app/page.tsx:93-108 | for any two inputs the last three entries are equal: background, expression, head/eye placement, all warn |
| Compliance.NoFileOpensWithReminder | app/page.tsx:65-67 | without a file the list starts with the single "Upload a photo" warn entry, followed directly by the image, export and manual sections |
| Compliance.FormatCheckStatus | app/page.tsx:53-58 | with a file, entry 0 is ok iff the name ends in jpg/jpeg ignoring case or the type contains image/jpeg; otherwise err; the label follows the status |
| Compliance.OriginalSizeCheckStatus | app/page.tsx:59-64 | with a file, entry 1 is ok iff the file is at most 245760 bytes and warn otherwise, never err; the image, export and manual sections follow from index 2 |
| Compliance.AspectCheckStatus | app/page.tsx:69-76 | with natural dimensions, the image-section entry is ok iff h > 0 and abs(w/h − 1) < 0.02, else warn; without them the export and manual sections follow the file section directly |
| Compliance.OutputCheckStatus | app/page.tsx:78-92 | with an export: resolution ok; budget ok iff the blob is at most 245760 bytes, else err, with a hint exactly when over; format ok |
| Compliance.NoExportNoOutputChecks | app/page.tsx:77-92 | without an export, the manual reminders directly follow the image section |
| Compliance.ErrOnlyFromFormatOrBudget | app/page.tsx:49-110 | an entry is err iff it is the format check of a non-JPEG file or the budget check of an over-budget export |
| Compliance.LargeNonSquareScenario | app/page.tsx:49-110 | a 500 KB JPEG of 1000×1200 with no export gives six entries: format ok, size warn, aspect warn, then the reminders |
| Compliance.SmallExportScenario | app/page.tsx:78-92 | a 180 KB export gives three ok export checks and no budget hint |
| Compliance.PageExportChecks | app/page.tsx:41-43 | an export made at 600 px as the page makes it has a 600×600 canvas with an ok resolution entry, and its budget entry is err only if all 8 retries were spent and the quality ended at the floor |

## Left out

- Image decoding (`loadImage`, `readFileAsDataURL`, `FileReader`): decoding is a parameter (the decoded image or a failure), not modelled.
- Pixel resampling by `drawImage` and its smoothing settings: the canvas is modelled only by its size, the source and destination rectangles, and a smoothing flag; the pixels belong to the browser.
- JPEG encoding (`canvas.toBlob`): a parameter, a total deterministic function of canvas and quality. A `null` from `toBlob` is modelled only for the 0 by 0 canvas (`EmptyCanvas`). Output sizes of 2^31 or more, where the canvas attributes fall back to 300 by 150, and canvases too large for the browser to allocate, which also give `null`, are not modelled.
- Floating point: the quality schedule, the aspect ratio and `bytesToKB` are exact integer models. IEEE rounding of `0.92 - 0.07·k`, of `w / h` at the exact 0.02 boundary, and of `bytes / 102.4` is not modelled.
- Text.TenthsString: prints sizes exactly as JavaScript does only below 2^53; sizes of 2^53 bytes or more (JavaScript number precision, where the shortest round-trip digits differ) and exponent notation are not modelled.
- Non-integer crop coordinates, and negative or non-integer output sizes: the crop is integer pixels (negative values included, passed on unchanged), and the output size is a natural number. Size 0 is the `EmptyCanvas` error; sizes too large for a canvas are left out, as above.
- Async/promise plumbing, the `saving` flag and the `doExport` guard on a missing image or crop (app/page.tsx:37-40, 44-47): event-loop concerns, not logic. The export call itself (line 41) is modelled.
- React state, hooks and JSX; the download trigger and object URLs (app/page.tsx:112-230).
- The difference between an absent `hint` and `hint: undefined`: both are `None`, as the checklist renders them the same.
- components/Cropper.tsx (crop gesture UI and guide rendering), app/layout.tsx (page chrome) and the rendering in components/ComplianceChecklist.tsx: presentation only. Only the `Check` and `ComplianceStatus` types are used.

=== FILE: checklist.dfy ===
/** The entries of the compliance checklist (`components/ComplianceChecklist.tsx`). */
module Checklist {
  import opened Wrappers

  /** How an entry is shown: passed, a reminder or a soft failure, or failed. */
  datatype Status = Ok | Warn | Err

  /** One line of the checklist: its label (`text`, since `label` is a Dafny
      keyword), its status, and an optional hint shown under it. */
  datatype Check = Check(text: string, status: Status, hint: Option<string>)
}

=== FILE: compliance.dfy ===
/** The compliance checklist the page computes (`checks` in `app/page.tsx`):
    a pure function of the chosen file's metadata, the image's natural size
    once known, and the last export, to an ordered list of checks. The list
    has four sections, always in this order: the file, the image, the export,
    and three reminders that only a person can judge. */
module Compliance {
  import opened Wrappers
  import opened Text
  import opened Checklist
  import Export

  /** What the page reads of the selected `File`: name, declared media type
      and size in bytes. */
  datatype FileMeta = FileMeta(name: string, mimeType: string, size: nat)

  /** The natural width and height of the loaded image, in pixels. */
  datatype Dims = Dims(w: nat, h: nat)

  /** `/jpe?g$/i.test(name)`, matched from the end of the name: a `g`, then
      either `p j` or `e p j`, in either case. No dot is required. */
  function JpegName(name: string): (b: bool)
    ensures b <==> EndsWithIgnoringCase(name, "jpg") || EndsWithIgnoringCase(name, "jpeg")
  {
    var n := |name|;
    && n >= 3
    && Lower(name[n - 1]) == 'g'
    && ((Lower(name[n - 2]) == 'p' && Lower(name[n - 3]) == 'j')
        || (n >= 4 && Lower(name[n - 2]) == 'e' && Lower(name[n - 3]) == 'p' && Lower(name[n - 4]) == 'j'))
  }

  /** The page's `isJpeg`: a JPEG-looking name, or a declared type containing
      `image/jpeg` (case matters there). */
  function IsJpeg(f: FileMeta): (b: bool)
    ensures b <==> || EndsWithIgnoringCase(f.name, "jpg")
                   || EndsWithIgnoringCase(f.name, "jpeg")
                   || exists i: nat :: OccursAt(f.mimeType, JpegMimeType, i)
  {
    JpegName(f.name) || Contains(f.mimeType, JpegMimeType)
  }

  function Abs(x: int): nat
  {
    if x < 0 then -x else x
  }

  function RealAbs(x: real): real
  {
    if x < 0.0 then -x else x
  }

  /** `Math.abs(w / h - 1) < 0.02`, in integers. A zero height fails: in the
      program `w / 0` is `Infinity` or `NaN`, and neither compares below 0.02. */
  function RoughlySquare(d: Dims): (b: bool)
    ensures b <==> d.h > 0 && RealAbs(d.w as real / d.h as real - 1.0) < 0.02
  {
    if d.h == 0 then false
    else
      RoughlySquareOverReals(d.w, d.h);
      50 * Abs(d.w - d.h) < d.h
  }

  /** For a positive height, the ratio test over exact reals is the integer
      test `50 * |w - h| < h`. */
  lemma RoughlySquareOverReals(w: nat, h: nat)
    requires h > 0
    ensures RealAbs(w as real / h as real - 1.0) < 0.02 <==> 50 * Abs(w - h) < h
  {
    var hr := h as real;
    var e := w as real / hr - 1.0;
    var dist := Abs(w - h) as real;
    DeviationTimesHeight(w, h);
    AbsOfScaled(e, hr);
    assert RealAbs((w - h) as real) == dist;
    BoundScaled(RealAbs(e), hr, dist);
  }

  /** A quantity below 0.02 is, scaled by a positive `c`, below `0.02 * c`. */
  lemma BoundScaled(a: real, c: real, ac: real)
    requires c > 0.0 && a * c == ac
    ensures a < 0.02 <==> ac < 0.02 * c
  {
    ScaleStrict(a, 0.02, c);
  }

  /** `(w / h - 1) * h` is `w - h`. */
  lemma DeviationTimesHeight(w: nat, h: nat)
    requires h > 0
    ensures (w as real / h as real - 1.0) * h as real == (w - h) as real
  {
    var hr := h as real;
    assert (w as real / hr) * hr == w as real;
  }

  /** Scaling by a positive number commutes with the absolute value. */
  lemma AbsOfScaled(x: real, c: real)
    requires c > 0.0
    ensures RealAbs(x) * c == RealAbs(x * c)
  {
    if x < 0.0 {
      assert x * c < 0.0;
    } else {
      assert x * c >= 0.0;
    }
  }

  /** Multiplying both sides by a positive number keeps a strict inequality. */
  lemma ScaleStrict(a: real, b: real, c: real)
    requires c > 0.0
    ensures a < b <==> a * c < b * c
  {
    assert (b - a) * c == b * c - a * c;
    if a < b {
      assert (b - a) * c > 0.0;
    } else {
      assert (a - b) * c >= 0.0;
    }
  }

  /** The size shown in a label: `bytesToKB(bytes)` printed as JavaScript prints it. */
  function KBText(bytes: nat): string
  {
    TenthsString(Export.BytesToKBTenths(bytes))
  }

  // Labels and hints, as the page writes them. The page's labels contain `?`
  // where ≤, × or – is evidently meant; they are kept as written.
  const FormatOkLabel := "File format: JPEG"
  const FormatBadLabel := "File format: not JPEG"
  const FormatHint := "Upload a .jpg or .jpeg file"
  const SizeOkPrefix := "Original file ? 240KB ("
  const SizeBadPrefix := "Original file too large ("
  const SizeHint := "Export step will compress if needed"
  const UploadLabel := "Upload a photo"
  const SquareLabel := "Aspect ratio roughly square"
  const NotSquareLabel := "Aspect ratio not square"
  const AspectHint := "You will crop to exact 1:1"
  const ResolutionLabel := "Export size: 600?600 pixels"
  const BudgetOkPrefix := "Export ? 240KB ("
  const BudgetBadPrefix := "Export > 240KB ("
  const BudgetHint := "Try zooming slightly or increasing background area"
  const ExportFormatLabel := "Export format: JPEG"
  const JpegMimeType := "image/jpeg"
  const BackgroundLabel := "Plain, light background (no patterns/shadows)"
  const ExpressionLabel := "Neutral expression, no glasses/headwear"
  const PlacementLabel := "Head height 50?69% and eyes 56?69% from bottom"

  function FormatCheck(f: FileMeta): Check
  {
    var isJpeg := IsJpeg(f);
    Check(if isJpeg then FormatOkLabel else FormatBadLabel, if isJpeg then Ok else Err, Some(FormatHint))
  }

  function OriginalSizeCheck(f: FileMeta): Check
  {
    var sizeOk := f.size <= Export.MaxBytes;
    Check((if sizeOk then SizeOkPrefix else SizeBadPrefix) + KBText(f.size) + "KB)",
          if sizeOk then Ok else Warn,
          Some(SizeHint))
  }

  /** Checks on the selected file, or a reminder to choose one. */
  function FileChecks(file: Option<FileMeta>): (list: seq<Check>)
    ensures |list| == ImageStart(file)
  {
    match file
    case Some(f) => [FormatCheck(f), OriginalSizeCheck(f)]
    case None => [Check(UploadLabel, Warn, None)]
  }

  /** The aspect-ratio check, once the natural size is known. */
  function ImageChecks(natural: Option<Dims>): (list: seq<Check>)
    ensures |list| == (if natural.Some? then 1 else 0)
  {
    match natural
    case Some(d) =>
      var square := RoughlySquare(d);
      [Check(if square then SquareLabel else NotSquareLabel, if square then Ok else Warn, Some(AspectHint))]
    case None => []
  }

  /** Checks on the last export: resolution, byte budget and format. */
  function OutputChecks(output: Option<Export.Blob>): (list: seq<Check>)
    ensures |list| == (if output.Some? then 3 else 0)
  {
    match output
    case Some(blob) =>
      var fits := blob.Size() <= Export.MaxBytes;
      [ Check(ResolutionLabel, Ok, None),
        Check((if fits then BudgetOkPrefix else BudgetBadPrefix) + KBText(blob.Size()) + "KB)",
              if fits then Ok else Err,
              if blob.Size() > Export.MaxBytes then Some(BudgetHint) else None),
        Check(ExportFormatLabel, Ok, None) ]
    case None => []
  }

  /** Reminders for rules no computation here can judge. */
  const ManualChecks: seq<Check> := [
    Check(BackgroundLabel, Warn, Some("Adjust lighting; replace background before upload if needed")),
    Check(ExpressionLabel, Warn, Some("Religious headwear allowed; face visible")),
    Check(PlacementLabel, Warn, Some("Align face within the on-canvas guides"))
  ]

  /** Index of the image section: after two file checks, or after the upload reminder. */
  function ImageStart(file: Option<FileMeta>): nat
  {
    if file.Some? then 2 else 1
  }

  /** Index of the export section. */
  function OutputStart(file: Option<FileMeta>, natural: Option<Dims>): nat
  {
    ImageStart(file) + (if natural.Some? then 1 else 0)
  }

  /** Index of the manual reminders, after the export section. */
  function ManualStart(file: Option<FileMeta>, natural: Option<Dims>, output: Option<Export.Blob>): nat
  {
    OutputStart(file, natural) + (if output.Some? then 3 else 0)
  }

  /** The checklist. Its length is fixed by which inputs are present, and it
      always ends with the three manual reminders. */
  function Checks(file: Option<FileMeta>, natural: Option<Dims>, output: Option<Export.Blob>): (list: seq<Check>)
    ensures |list| == (if file.Some? then 2 else 1) + (if natural.Some? then 1 else 0)
                      + (if output.Some? then 3 else 0) + 3
    ensures list[|list| - 3..] == ManualChecks
  {
    FileChecks(file) + ImageChecks(natural) + OutputChecks(output) + ManualChecks
  }

  /** Where an index falls in a list made of four consecutive parts. */
  lemma PartIndex(a: seq<Check>, b: seq<Check>, c: seq<Check>, d: seq<Check>, i: int)
    requires 0 <= i < |a| + |b| + |c| + |d|
    ensures i < |a| ==> (a + b + c + d)[i] == a[i]
    ensures |a| <= i < |a| + |b| ==> (a + b + c + d)[i] == b[i - |a|]
    ensures |a| + |b| <= i < |a| + |b| + |c| ==> (a + b + c + d)[i] == c[i - |a| - |b|]
  {
  }

  /** What remains of a list made of four consecutive parts once leading
      parts are dropped. */
  lemma PartSuffix(a: seq<Check>, b: seq<Check>, c: seq<Check>, d: seq<Check>)
    ensures (a + b + c + d)[|a|..] == b + c + d
    ensures (a + b + c + d)[|a| + |b|..] == c + d
    ensures (a + b + c + d)[|a| + |b| + |c|..] == d
  {
  }

  /** The last three entries are the same reminders, all `warn`, whatever the
      inputs: background, expression, then head and eye placement. */
  lemma ManualChecksFixed(file1: Option<FileMeta>, natural1: Option<Dims>, output1: Option<Export.Blob>,
                          file2: Option<FileMeta>, natural2: Option<Dims>, output2: Option<Export.Blob>)
    ensures var l1 := Checks(file1, natural1, output1);
            var l2 := Checks(file2, natural2, output2);
      && l1[|l1| - 3..] == l2[|l2| - 3..]
      && l1[|l1| - 3].text == BackgroundLabel
      && l1[|l1| - 2].text == ExpressionLabel
      && l1[|l1| - 1].text == PlacementLabel
      && forall i :: |l1| - 3 <= i < |l1| ==> l1[i].status == Warn
  {
    ManualTail(Checks(file1, natural1, output1));
  }

  /** Any list ending in the manual reminders has them, all `warn`, in its
      last three places. */
  lemma ManualTail(l: seq<Check>)
    requires |l| >= 3 && l[|l| - 3..] == ManualChecks
    ensures l[|l| - 3].text == BackgroundLabel
    ensures l[|l| - 2].text == ExpressionLabel
    ensures l[|l| - 1].text == PlacementLabel
    ensures forall i :: |l| - 3 <= i < |l| ==> l[i].status == Warn
  {
    assert l[|l| - 3..][0] == l[|l| - 3];
    assert l[|l| - 3..][1] == l[|l| - 2];
    assert l[|l| - 3..][2] == l[|l| - 1];
    forall i | |l| - 3 <= i < |l|
      ensures l[i].status == Warn
    {
      assert l[i] == l[|l| - 3..][i - (|l| - 3)];
    }
  }

  /** Without a file the list opens with a single upload reminder, and the
      image section follows it directly. */
  lemma NoFileOpensWithReminder(natural: Option<Dims>, output: Option<Export.Blob>)
    ensures var list := Checks(None, natural, output);
      && list[0] == Check(UploadLabel, Warn, None)
      && list[1..] == ImageChecks(natural) + OutputChecks(output) + ManualChecks
  {
    PartIndex(FileChecks(None), ImageChecks(natural), OutputChecks(output), ManualChecks, 0);
    PartSuffix(FileChecks(None), ImageChecks(natural), OutputChecks(output), ManualChecks);
  }

  /** With a file, the first entry is the format check: `ok` exactly when the
      name ends in "jpg" or "jpeg" in any case or the declared type contains
      "image/jpeg" (in that case), and `err` otherwise. */
  lemma FormatCheckStatus(f: FileMeta, natural: Option<Dims>, output: Option<Export.Blob>)
    ensures var list := Checks(Some(f), natural, output);
      && (list[0].status == Ok <==>
            || EndsWithIgnoringCase(f.name, "jpg")
            || EndsWithIgnoringCase(f.name, "jpeg")
            || exists i: nat :: OccursAt(f.mimeType, JpegMimeType, i))
      && list[0].status != Warn
      && list[0].text == (if list[0].status == Ok then FormatOkLabel else FormatBadLabel)
  {
  }

  /** With a file, the second entry is the original-size check: `ok` exactly
      when the file is at most 240 KB, otherwise `warn`, never `err`. The
      image section follows it. */
  lemma OriginalSizeCheckStatus(f: FileMeta, natural: Option<Dims>, output: Option<Export.Blob>)
    ensures var list := Checks(Some(f), natural, output);
      && (list[1].status == Ok <==> f.size <= Export.MaxBytes)
      && (list[1].status != Ok ==> list[1].status == Warn)
      && list[2..] == ImageChecks(natural) + OutputChecks(output) + ManualChecks
  {
    AfterFileSection(f, natural, output);
  }

  /** With a file, the file section takes two entries and the rest of the
      list follows it. */
  lemma AfterFileSection(f: FileMeta, natural: Option<Dims>, output: Option<Export.Blob>)
    ensures Checks(Some(f), natural, output)[2..] == ImageChecks(natural) + OutputChecks(output) + ManualChecks
  {
    PartSuffix(FileChecks(Some(f)), ImageChecks(natural), OutputChecks(output), ManualChecks);
  }

  /** When the natural size is known, the image section holds the aspect
      check: `ok` exactly when `|w / h - 1| < 0.02` with `h > 0`, otherwise
      `warn`. Without it the section is empty and the export section starts
      right after the file section. */
  lemma AspectCheckStatus(file: Option<FileMeta>, natural: Option<Dims>, output: Option<Export.Blob>)
    ensures var list := Checks(file, natural, output);
      && (natural.None? ==> list[ImageStart(file)..] == OutputChecks(output) + ManualChecks)
      && (natural.Some? ==>
            var d := natural.value;
            var c := list[ImageStart(file)];
            && (c.status == Ok <==> d.h > 0 && RealAbs(d.w as real / d.h as real - 1.0) < 0.02)
            && (c.status != Ok ==> c.status == Warn)
            && c.hint == Some(AspectHint))
  {
    if natural.Some? {
      AspectEntry(file, natural.value, output);
    } else {
      NoImageSection(file, output);
    }
  }

  /** Without natural dimensions, the export and manual sections follow the
      file section directly. */
  lemma NoImageSection(file: Option<FileMeta>, output: Option<Export.Blob>)
    ensures Checks(file, None, output)[ImageStart(file)..] == OutputChecks(output) + ManualChecks
  {
    PartSuffix(FileChecks(file), ImageChecks(None), OutputChecks(output), ManualChecks);
  }

  /** The entry at the start of the image section is the aspect check, `ok`
      exactly for a roughly square image and `warn` otherwise. */
  lemma AspectEntry(file: Option<FileMeta>, d: Dims, output: Option<Export.Blob>)
    ensures var c := Checks(file, Some(d), output)[ImageStart(file)];
      && (c.status == Ok <==> RoughlySquare(d))
      && (c.status != Ok ==> c.status == Warn)
      && c.hint == Some(AspectHint)
  {
    PartIndex(FileChecks(file), ImageChecks(Some(d)), OutputChecks(output), ManualChecks, ImageStart(file));
  }

  /** With an export, the export section has three entries: resolution
      (`ok`), budget (`ok` exactly when the blob is at most 240 KB, otherwise
      `err`, with a hint exactly in that case), and format (`ok`). */
  lemma OutputCheckStatus(file: Option<FileMeta>, natural: Option<Dims>, blob: Export.Blob)
    ensures var list := Checks(file, natural, Some(blob));
            var o := OutputStart(file, natural);
      && list[o].status == Ok
      && (list[o + 1].status == Ok <==> blob.Size() <= Export.MaxBytes)
      && (list[o + 1].status != Ok ==> list[o + 1].status == Err)
      && (list[o + 1].hint.Some? <==> blob.Size() > Export.MaxBytes)
      && list[o + 2].status == Ok
  {
    var o := OutputStart(file, natural);
    PartIndex(FileChecks(file), ImageChecks(natural), OutputChecks(Some(blob)), ManualChecks, o);
    PartIndex(FileChecks(file), ImageChecks(natural), OutputChecks(Some(blob)), ManualChecks, o + 1);
    PartIndex(FileChecks(file), ImageChecks(natural), OutputChecks(Some(blob)), ManualChecks, o + 2);
  }

  /** An `err` entry is either a non-JPEG file's format check (first entry)
      or an over-budget export's budget check (second entry of the export
      section), and each of those is an `err`. */
  lemma ErrOnlyFromFormatOrBudget(file: Option<FileMeta>, natural: Option<Dims>, output: Option<Export.Blob>, i: int)
    requires 0 <= i < ManualStart(file, natural, output) + 3
    ensures Checks(file, natural, output)[i].status == Err <==>
      || (i == 0 && file.Some? && !IsJpeg(file.value))
      || (output.Some? && i == OutputStart(file, natural) + 1 && output.value.Size() > Export.MaxBytes)
  {
    if i < ImageStart(file) {
      ErrInFileSection(file, natural, output, i);
    } else if i < OutputStart(file, natural) {
      NoErrInImageSection(file, natural, output, i);
    } else if i < ManualStart(file, natural, output) {
      ErrInOutputSection(file, natural, output, i);
    } else {
      NoErrInManualSection(file, natural, output, i);
    }
  }

  lemma ErrInFileSection(file: Option<FileMeta>, natural: Option<Dims>, output: Option<Export.Blob>, i: int)
    requires 0 <= i < ImageStart(file)
    ensures Checks(file, natural, output)[i].status == Err <==> i == 0 && file.Some? && !IsJpeg(file.value)
  {
    PartIndex(FileChecks(file), ImageChecks(natural), OutputChecks(output), ManualChecks, i);
  }

  lemma NoErrInImageSection(file: Option<FileMeta>, natural: Option<Dims>, output: Option<Export.Blob>, i: int)
    requires ImageStart(file) <= i < OutputStart(file, natural)
    ensures Checks(file, natural, output)[i].status != Err
  {
    PartIndex(FileChecks(file), ImageChecks(natural), OutputChecks(output), ManualChecks, i);
  }

  lemma NoErrInManualSection(file: Option<FileMeta>, natural: Option<Dims>, output: Option<Export.Blob>, i: int)
    requires ManualStart(file, natural, output) <= i < ManualStart(file, natural, output) + 3
    ensures Checks(file, natural, output)[i].status == Warn
  {
    var list := Checks(file, natural, output);
    assert list[i] == list[|list| - 3..][i - (|list| - 3)];
  }

  lemma ErrInOutputSection(file: Option<FileMeta>, natural: Option<Dims>, output: Option<Export.Blob>, i: int)
    requires OutputStart(file, natural) <= i < ManualStart(file, natural, output)
    ensures Checks(file, natural, output)[i].status == Err <==>
      output.Some? && i == OutputStart(file, natural) + 1 && output.value.Size() > Export.MaxBytes
  {
    PartIndex(FileChecks(file), ImageChecks(natural), OutputChecks(output), ManualChecks, i);
  }

  /** A 500 KB JPEG whose image is 1000 by 1200, not yet exported: the size
      and aspect checks warn, no export checks appear, and the list has six
      entries. */
  lemma LargeNonSquareScenario(name: string)
    ensures var list := Checks(Some(FileMeta(name, "image/jpeg", 500 * 1024)), Some(Dims(1000, 1200)), None);
      && |list| == 6
      && list[0].status == Ok
      && list[1].status == Warn
      && list[2].status == Warn
      && list[3..] == ManualChecks
  {
    var f := FileMeta(name, "image/jpeg", 500 * 1024);
    var d := Dims(1000, 1200);
    assert OccursAt(f.mimeType, JpegMimeType, 0);
    assert RoughlySquare(d) == false;
    PartIndex(FileChecks(Some(f)), ImageChecks(Some(d)), OutputChecks(None), ManualChecks, 0);
    PartIndex(FileChecks(Some(f)), ImageChecks(Some(d)), OutputChecks(None), ManualChecks, 1);
    PartIndex(FileChecks(Some(f)), ImageChecks(Some(d)), OutputChecks(None), ManualChecks, 2);
  }

  /** Without an export, the manual reminders follow the image section
      directly: no export check appears. */
  lemma NoExportNoOutputChecks(file: Option<FileMeta>, natural: Option<Dims>)
    ensures var list := Checks(file, natural, None);
      list[OutputStart(file, natural)..] == ManualChecks
  {
    PartSuffix(FileChecks(file), ImageChecks(natural), OutputChecks(None), ManualChecks);
  }

  /** An export of 180 KB: its three checks, resolution, budget and format,
      are all `ok`, and the budget check has no hint. */
  lemma SmallExportScenario(file: Option<FileMeta>, natural: Option<Dims>, blob: Export.Blob)
    requires blob.Size() == 180 * 1024
    ensures var list := Checks(file, natural, Some(blob));
            var o := OutputStart(file, natural);
      && list[o].status == Ok && list[o + 1].status == Ok && list[o + 2].status == Ok
      && list[o + 1].hint.None?
  {
    OutputCheckStatus(file, natural, blob);
  }

  /** An export made as the page makes it (600 pixels) has a 600 by 600
      canvas, so the resolution entry's `ok` is earned; and its budget entry
      is `err` only when the quality search spent all its retries and ended
      at the floor quality. */
  lemma PageExportChecks(file: Option<FileMeta>, natural: Option<Dims>, image: Export.Image, crop: Export.Rect,
                         encode: Export.JpegEncoder)
    ensures var r := Export.GetCroppedImageAsJpeg(Some(image), true, crop, Export.OutputSize, encode);
      && r.Success?
      && r.value.surface.width == 600 && r.value.surface.height == 600
      && var list := Checks(file, natural, Some(r.value.search.blob));
         var o := OutputStart(file, natural);
         && list[o].status == Ok
         && (list[o + 1].status == Err ==>
               r.value.search.attempts == Export.MaxRetries && r.value.search.quality == Export.QualityFloor)
  {
    var r := Export.GetCroppedImageAsJpeg(Some(image), true, crop, Export.OutputSize, encode);
    var surface := r.value.surface;
    Export.GracefulDegradation((q: nat) => encode(surface, q), Export.MaxBytes);
    OutputCheckStatus(file, natural, r.value.search.blob);
  }
}

=== FILE: export.dfy ===
/** The export pipeline of `utils/export.ts`: draw the chosen crop onto a
    fixed square canvas, then encode it as JPEG, lowering the quality step by
    step until the encoding fits the byte budget or the retries run out.

    Quality is counted in hundredths (0.92 is 92). The browser's JPEG encoder
    is a parameter: a total, deterministic function from a canvas and a
    quality to the bytes it produces. Nothing is assumed about how the size
    depends on the quality. */
module Export {
  import opened Wrappers

  /** Side of the square output, in pixels (the default and what the page passes). */
  const OutputSize: nat := 600
  /** Byte budget of an export: 240 KB. */
  const MaxBytes: nat := 240 * 1024
  /** Quality of the first encoding, 0.92. */
  const InitialQuality: nat := 92
  /** Amount the quality drops on each retry, 0.07. */
  const QualityStep: nat := 7
  /** Quality never goes below 0.5. */
  const QualityFloor: nat := 50
  /** Re-encodings after the first one. */
  const MaxRetries: nat := 8

  type Byte = bv8

  /** An encoded image. */
  datatype Blob = Blob(bytes: seq<Byte>)
  {
    function Size(): nat { |bytes| }
  }

  /** An axis-aligned rectangle in pixels: the crop in source coordinates, or
      where it lands on the canvas. */
  datatype Rect = Rect(x: int, y: int, width: int, height: int)

  /** A decoded source image; only its natural size is visible to the model. */
  datatype Image = Image(naturalWidth: nat, naturalHeight: nat)

  /** The output canvas after the crop has been drawn on it: its size, the
      image and rectangle drawn from, the rectangle drawn into, and whether
      high-quality smoothing was on. The resampled pixels themselves belong
      to the browser. */
  datatype Surface = Surface(width: nat, height: nat, image: Image, source: Rect, dest: Rect, smoothHigh: bool)

  /** `canvas.toBlob(…, "image/jpeg", quality / 100)`. */
  type JpegEncoder = (Surface, nat) -> Blob

  datatype ExportError =
    | ImageLoadFailed     // `loadImage` rejected: the data could not be decoded
    | CanvasNotSupported  // `getContext("2d")` gave no context
    | EmptyCanvas         // a 0 by 0 canvas: `toBlob` yields `null`, and reading its size throws

  /** State of the quality search: the current encoding, the quality it was
      made at, the retries made so far, and every quality handed to the
      encoder, in call order. */
  datatype Attempt = Attempt(blob: Blob, quality: nat, attempts: nat, calls: seq<nat>)

  /** A finished export: the drawn canvas and the final search state, whose
      blob is what the program returns. */
  datatype Exported = Exported(surface: Surface, search: Attempt)

  function Max(a: int, b: int): int
  {
    if a >= b then a else b
  }

  /** One retry's quality update, `Math.max(0.5, quality - 0.07)`. */
  function NextQuality(q: nat): (r: nat)
    ensures QualityFloor <= r
    ensures q >= QualityFloor ==> r <= q
    ensures q >= QualityFloor + QualityStep ==> q - r == QualityStep
    ensures q < QualityFloor + QualityStep ==> r == QualityFloor
  {
    Max(QualityFloor, q - QualityStep)
  }

  /** Quality used on attempt `k` (attempt 0 is the first encoding): the
      initial quality with the update applied `k` times. */
  function QualityAt(k: nat): (q: nat)
    ensures QualityFloor <= q <= InitialQuality
  {
    if k == 0 then InitialQuality else NextQuality(QualityAt(k - 1))
  }

  /** Closed form of the schedule: 92, 85, 78, 71, 64, 57, then 50 for good. */
  lemma {:induction false} QualityClosedForm(k: nat)
    ensures QualityAt(k) == Max(QualityFloor, InitialQuality - QualityStep * k)
  {
    if k > 0 {
      QualityClosedForm(k - 1);
    }
  }

  /** The quality never rises from one attempt to a later one. */
  lemma QualityNonIncreasing(j: nat, k: nat)
    requires j <= k
    ensures QualityAt(k) <= QualityAt(j)
  {
    QualityClosedForm(j);
    QualityClosedForm(k);
  }

  /** From attempt 6 on, the encoder is asked for the floor quality. */
  lemma QualityAtFloor(k: nat)
    ensures QualityAt(k) == QualityFloor <==> k >= 6
  {
    QualityClosedForm(k);
  }

  /** The nine qualities of a search that never fits. */
  lemma QualitySchedule()
    ensures seq(MaxRetries + 1, k requires k >= 0 => QualityAt(k))
         == [92, 85, 78, 71, 64, 57, 50, 50, 50]
  {
    forall k | 0 <= k <= MaxRetries {
      QualityClosedForm(k);
    }
  }

  /** The search state is what the loop of the program keeps: the quality of
      attempt `attempts`, the encoding at that quality, and a log holding one
      call per attempt at the scheduled quality. */
  predicate Consistent(encode: nat -> Blob, s: Attempt)
  {
    && s.quality == QualityAt(s.attempts)
    && s.blob == encode(s.quality)
    && |s.calls| == s.attempts + 1
    && forall i :: 0 <= i < |s.calls| ==> s.calls[i] == QualityAt(i)
  }

  /** The retry loop: while the encoding is over budget and retries remain,
      lower the quality and encode again. */
  function SearchFrom(encode: nat -> Blob, maxBytes: nat, s: Attempt): (r: Attempt)
    requires s.attempts <= MaxRetries && Consistent(encode, s)
    ensures s.attempts <= r.attempts <= MaxRetries && Consistent(encode, r)
    ensures forall k :: s.attempts <= k < r.attempts ==> encode(QualityAt(k)).Size() > maxBytes
    ensures r.blob.Size() <= maxBytes || r.attempts == MaxRetries
    decreases MaxRetries - s.attempts
  {
    if s.blob.Size() > maxBytes && s.attempts < MaxRetries then
      var q := NextQuality(s.quality);
      SearchFrom(encode, maxBytes, Attempt(encode(q), q, s.attempts + 1, s.calls + [q]))
    else
      s
  }

  /** Encode at the initial quality, then run the retry loop. The result
      holds the returned blob: it is the encoding of the first attempt that
      fits the budget, or of the last attempt when none fits. */
  function Search(encode: nat -> Blob, maxBytes: nat): (r: Attempt)
    ensures r.attempts <= MaxRetries && |r.calls| == r.attempts + 1
    ensures forall i :: 0 <= i < |r.calls| ==> r.calls[i] == QualityAt(i)
    ensures r.quality == QualityAt(r.attempts) && r.blob == encode(r.quality)
    ensures forall k :: 0 <= k < r.attempts ==> encode(QualityAt(k)).Size() > maxBytes
    ensures r.blob.Size() <= maxBytes || r.attempts == MaxRetries
  {
    SearchFrom(encode, maxBytes, Attempt(encode(InitialQuality), InitialQuality, 0, [InitialQuality]))
  }

  /** The encoder is called at most nine times, at the scheduled qualities. */
  lemma EncoderCallBound(encode: nat -> Blob, maxBytes: nat)
    ensures var r := Search(encode, maxBytes);
      1 <= |r.calls| <= MaxRetries + 1
      && forall i :: 0 <= i < |r.calls| ==> r.calls[i] == Max(QualityFloor, InitialQuality - QualityStep * i)
  {
    var r := Search(encode, maxBytes);
    forall i | 0 <= i < |r.calls| {
      QualityClosedForm(i);
    }
  }

  /** When the first encoding fits, it is returned after exactly one call;
      otherwise at least one retry happens. */
  lemma FirstEncodingFits(encode: nat -> Blob, maxBytes: nat)
    ensures var r := Search(encode, maxBytes);
      encode(InitialQuality).Size() <= maxBytes
      <==> (|r.calls| == 1 && r.blob == encode(InitialQuality))
  {
  }

  /** The search returns the first attempt whose encoding fits: if attempt
      `k` fits and no earlier one does, the result is attempt `k`'s encoding,
      after `k + 1` calls. */
  lemma StopsAtFirstFit(encode: nat -> Blob, maxBytes: nat, k: nat)
    requires k <= MaxRetries
    requires encode(QualityAt(k)).Size() <= maxBytes
    requires forall j :: 0 <= j < k ==> encode(QualityAt(j)).Size() > maxBytes
    ensures var r := Search(encode, maxBytes);
      r.attempts == k && |r.calls| == k + 1 && r.blob == encode(QualityAt(k))
  {
  }

  /** A returned blob over the budget means every retry was spent and the
      blob is the floor-quality encoding: the search degrades instead of
      failing. */
  lemma GracefulDegradation(encode: nat -> Blob, maxBytes: nat)
    ensures var r := Search(encode, maxBytes);
      r.blob.Size() > maxBytes ==>
        && r.attempts == MaxRetries
        && |r.calls| == MaxRetries + 1
        && r.quality == QualityFloor
        && r.blob == encode(QualityFloor)
        && forall k :: 0 <= k <= MaxRetries ==> encode(QualityAt(k)).Size() > maxBytes
  {
    var r := Search(encode, maxBytes);
    if r.blob.Size() > maxBytes {
      QualityAtFloor(MaxRetries);
    }
  }

  /** If the floor-quality encoding fits, the returned blob fits, whether or
      not the size falls as the quality falls. */
  lemma FloorFitGuaranteesFit(encode: nat -> Blob, maxBytes: nat)
    requires encode(QualityFloor).Size() <= maxBytes
    ensures Search(encode, maxBytes).blob.Size() <= maxBytes
  {
    GracefulDegradation(encode, maxBytes);
  }

  /** When the encoded size never grows as the quality falls, an over-budget
      floor encoding means every attempt is over budget, so the search returns
      the floor encoding itself. */
  lemma MonotoneFloorMiss(encode: nat -> Blob, maxBytes: nat)
    requires forall q1: nat, q2: nat :: QualityFloor <= q1 <= q2 ==> encode(q1).Size() <= encode(q2).Size()
    requires encode(QualityFloor).Size() > maxBytes
    ensures Search(encode, maxBytes).blob == encode(QualityFloor)
  {
    var r := Search(encode, maxBytes);
    assert encode(QualityFloor).Size() <= encode(r.quality).Size();
    GracefulDegradation(encode, maxBytes);
  }

  /** A worked case: first encodings of 310 KB, 260 KB and 215 KB at 0.92,
      0.85 and 0.78. The search stops at 0.78 after three calls and returns the
      215 KB encoding. */
  lemma ThreeCallScenario(encode: nat -> Blob)
    requires encode(92).Size() == 310 * 1024
    requires encode(85).Size() == 260 * 1024
    requires encode(78).Size() == 215 * 1024
    ensures var r := Search(encode, MaxBytes);
      |r.calls| == 3 && r.quality == 78 && r.blob.Size() == 215 * 1024
  {
    QualityClosedForm(0);
    QualityClosedForm(1);
    QualityClosedForm(2);
    StopsAtFirstFit(encode, MaxBytes, 2);
  }

  /** A larger budget never needs more encoder calls. */
  lemma LargerBudgetNoMoreCalls(encode: nat -> Blob, small: nat, large: nat)
    requires small <= large
    ensures |Search(encode, large).calls| <= |Search(encode, small).calls|
  {
  }

  /** Draws the crop stretched over the whole canvas, which is set to
      `outputSize` by `outputSize` pixels. */
  function DrawCropped(image: Image, crop: Rect, outputSize: nat): (s: Surface)
    ensures s.width == outputSize && s.height == outputSize
    ensures s.dest == Rect(0, 0, s.width, s.height)
    ensures s.source == crop && s.image == image && s.smoothHigh
  {
    Surface(outputSize, outputSize, image, crop, Rect(0, 0, outputSize, outputSize), true)
  }

  /** `getCroppedImageAsJpeg`: decode, draw, then search for a quality that
      fits 240 KB. `decoded` is what `loadImage` resolved to (`None` when it
      rejected) and `hasContext` whether the canvas gave a 2D context. A
      canvas of output size 0 has no pixels to encode: the first `toBlob`
      yields `null` and the loop test's `blob.size` throws. */
  function GetCroppedImageAsJpeg(decoded: Option<Image>, hasContext: bool, crop: Rect, outputSize: nat,
                                 encode: JpegEncoder): (r: Result<Exported, ExportError>)
    ensures decoded.None? ==> r == Failure(ImageLoadFailed)
    ensures decoded.Some? && !hasContext ==> r == Failure(CanvasNotSupported)
    ensures decoded.Some? && hasContext && outputSize == 0 ==> r == Failure(EmptyCanvas)
    ensures r.Success? <==> decoded.Some? && hasContext && outputSize > 0
    ensures r.Success? ==>
      var s := r.value.surface;
      && s.width == outputSize && s.height == outputSize
      && s.dest == Rect(0, 0, s.width, s.height)
      && s.source == crop && s.image == decoded.value
    ensures r.Success? ==>
      var a := r.value.search;
      && 1 <= |a.calls| <= MaxRetries + 1
      && a.blob == encode(r.value.surface, a.quality)
      && (a.blob.Size() <= MaxBytes || a.quality == QualityFloor)
    ensures r.Success? ==>
      var a := r.value.search;
      && a.quality == QualityAt(a.attempts)
      && (forall k :: 0 <= k < a.attempts ==> encode(r.value.surface, QualityAt(k)).Size() > MaxBytes)
      && (a.blob.Size() <= MaxBytes || a.attempts == MaxRetries)
  {
    match decoded
    case None => Failure(ImageLoadFailed)
    case Some(image) =>
      if !hasContext then Failure(CanvasNotSupported)
      else if outputSize == 0 then Failure(EmptyCanvas)
      else
        var surface := DrawCropped(image, crop, outputSize);
        var a := Search((q: nat) => encode(surface, q), MaxBytes);
        GracefulDegradation((q: nat) => encode(surface, q), MaxBytes);
        Success(Exported(surface, a))
  }

  /** The output's dimensions do not depend on the crop: two exports at the
      same output size have canvases of the same size, whatever the two
      crops' widths and heights; at size 0 both fail alike. */
  lemma OutputSizeIndependentOfCrop(image: Image, crop1: Rect, crop2: Rect, outputSize: nat, encode: JpegEncoder)
    ensures var r1 := GetCroppedImageAsJpeg(Some(image), true, crop1, outputSize, encode);
            var r2 := GetCroppedImageAsJpeg(Some(image), true, crop2, outputSize, encode);
      && (outputSize > 0 ==>
            && r1.Success? && r2.Success?
            && r1.value.surface.width == r2.value.surface.width == outputSize
            && r1.value.surface.height == r2.value.surface.height == outputSize)
      && (outputSize == 0 ==> r1 == r2 == Failure(EmptyCanvas))
  {
  }

  /** `bytesToKB`, in tenths of a KB: `bytes / 102.4` rounded half up, that is
      `bytes * 10 / 1024` rounded to the nearest whole number, ties upward. */
  function BytesToKBTenths(bytes: nat): (t: nat)
    ensures 10 * bytes - 512 < 1024 * t <= 10 * bytes + 512
  {
    (5 * bytes + 256) / 512
  }

  /** Agreement with the program's formula read over exact reals:
      `Math.round(bytes / 102.4)` is `floor(bytes / 102.4 + 0.5)`. */
  lemma BytesToKBMatchesRounding(bytes: nat)
    ensures BytesToKBTenths(bytes) == (bytes as real / 102.4 + 0.5).Floor
  {
    var t := BytesToKBTenths(bytes);
    var x := bytes as real / 102.4 + 0.5;
    assert x == (5 * bytes + 256) as real / 512.0;
    assert 512 * t <= 5 * bytes + 256 < 512 * (t + 1);
    assert t as real <= x < (t + 1) as real;
  }

  /** A larger file never shows a smaller size. */
  lemma BytesToKBMonotone(a: nat, b: nat)
    requires a <= b
    ensures BytesToKBTenths(a) <= BytesToKBTenths(b)
  {
  }

  /** The budget itself shows as exactly 240 KB. */
  lemma BudgetShowsAs240()
    ensures BytesToKBTenths(MaxBytes) == 2400
  {
  }
}

=== FILE: text.dfy ===
/** String helpers the checklist needs: ASCII case folding (the `i` flag of a
    JavaScript regular expression without the `u` flag), unanchored substring
    search, and the way JavaScript prints whole numbers below 2^53 and tenths
    `t / 10` below 2^49. */
module Text {

  /** Case folding as a non-Unicode `i` regular expression does it: only the
      ASCII letters fold; no other character folds onto an ASCII one. */
  function Lower(c: char): char
  {
    if 'A' <= c <= 'Z' then (c as int + 32) as char else c
  }

  predicate EqualIgnoringCase(a: string, b: string)
  {
    |a| == |b| && forall i :: 0 <= i < |a| ==> Lower(a[i]) == Lower(b[i])
  }

  predicate EndsWithIgnoringCase(s: string, suffix: string)
  {
    |suffix| <= |s| && EqualIgnoringCase(s[|s| - |suffix|..], suffix)
  }

  /** `sub` occurs in `s` starting at index `i`. */
  predicate OccursAt(s: string, sub: string, i: nat)
  {
    i + |sub| <= |s| && s[i..i + |sub|] == sub
  }

  /** Unanchored search for a literal pattern, trying each start position
      from the left. It finds the pattern exactly when it occurs somewhere. */
  function Contains(s: string, sub: string): (b: bool)
    ensures b <==> exists i: nat :: OccursAt(s, sub, i)
    decreases |s|
  {
    if |sub| > |s| then false
    else if s[..|sub|] == sub then assert OccursAt(s, sub, 0); true
    else
      OccursShift(s, sub);
      Contains(s[1..], sub)
  }

  /** Occurrences in the tail of `s` are the occurrences in `s` past index 0,
      moved one place left. */
  lemma OccursShift(s: string, sub: string)
    requires |s| >= 1
    ensures forall i: nat :: OccursAt(s[1..], sub, i) ==> OccursAt(s, sub, i + 1)
    ensures forall j: nat :: 0 < j && OccursAt(s, sub, j) ==> OccursAt(s[1..], sub, j - 1)
  {
    forall i: nat | OccursAt(s[1..], sub, i)
      ensures OccursAt(s, sub, i + 1)
    {
      assert s[i + 1..i + 1 + |sub|] == s[1..][i..i + |sub|];
    }
    forall j: nat | 0 < j && OccursAt(s, sub, j)
      ensures OccursAt(s[1..], sub, j - 1)
    {
      assert s[1..][j - 1..j - 1 + |sub|] == s[j..j + |sub|];
    }
  }

  predicate IsDigit(c: char)
  {
    '0' <= c <= '9'
  }

  function DigitChar(d: nat): (c: char)
    requires d < 10
    ensures IsDigit(c)
  {
    ('0' as int + d) as char
  }

  function DigitValue(c: char): int
  {
    c as int - '0' as int
  }

  /** Base-ten numeral of `n`. JavaScript prints a non-negative integer this
      way while it is below 2^53, where every integer is an exact number. */
  function DecimalString(n: nat): (s: string)
    ensures |s| >= 1
    ensures forall i :: 0 <= i < |s| ==> IsDigit(s[i])
    ensures s[0] == '0' ==> n == 0
    decreases n
  {
    if n < 10 then [DigitChar(n)] else DecimalString(n / 10) + [DigitChar(n % 10)]
  }

  /** The number a string of digits denotes, most significant digit first. */
  function DecimalValue(s: string): int
  {
    if s == [] then 0 else 10 * DecimalValue(s[..|s| - 1]) + DigitValue(s[|s| - 1])
  }

  /** Printing and reading back a numeral gives the number again. */
  lemma {:induction false} DecimalRoundTrip(n: nat)
    ensures DecimalValue(DecimalString(n)) == n
    decreases n
  {
    var s := DecimalString(n);
    if n >= 10 {
      DecimalRoundTrip(n / 10);
      assert s[..|s| - 1] == DecimalString(n / 10);
    }
  }

  /** How JavaScript prints `t / 10` for a whole number `t` of tenths, while
      `t / 10` is below 2^49 (from there on neighbouring doubles are further
      apart than 0.1): the integer part, then a point and the tenths digit
      unless that digit is 0. A printed size reads back as the size it was printed from,
      so distinct sizes never print the same. */
  function TenthsString(t: nat): (s: string)
    ensures ParseTenths(s) == t
  {
    var whole := DecimalString(t / 10);
    DecimalRoundTrip(t / 10);
    if t % 10 == 0 then
      ReadWhole(whole);
      whole
    else
      ReadWithTenth(whole, t % 10);
      whole + ['.', DigitChar(t % 10)]
  }

  /** A string of digits reads back as ten times its value: there is no
      point to find. */
  lemma ReadWhole(whole: string)
    requires forall i :: 0 <= i < |whole| ==> IsDigit(whole[i])
    ensures ParseTenths(whole) == 10 * DecimalValue(whole)
  {
    if |whole| >= 2 {
      assert IsDigit(whole[|whole| - 2]);
    }
  }

  /** Digits, a point and one more digit read back as the digits' value in
      tenths plus that digit. */
  lemma ReadWithTenth(whole: string, d: nat)
    requires d < 10
    ensures var s := whole + ['.', DigitChar(d)];
      ParseTenths(s) == 10 * DecimalValue(whole) + d
  {
    var s := whole + ['.', DigitChar(d)];
    assert s[|s| - 2] == '.';
    assert s[..|s| - 2] == whole;
  }

  /** Reads a number printed with at most one decimal back, in tenths. */
  function ParseTenths(s: string): int
  {
    if |s| >= 2 && s[|s| - 2] == '.' then 10 * DecimalValue(s[..|s| - 2]) + DigitValue(s[|s| - 1])
    else 10 * DecimalValue(s)
  }
}

=== FILE: wrappers.dfy ===
/** Optional values and results with an error, for the places where the
    program has `null`/`undefined` or a rejected promise. */
module Wrappers {

  /** A value that may be absent (`null` or `undefined` in the program). */
  datatype Option<+T> = None | Some(value: T)

  /** The outcome of an operation that can fail with an error of type `E`. */
  datatype Result<+T, +E> = Success(value: T) | Failure(error: E)
}
